=== FILE: README.md ===
# Duotune core, modelled in Dafny

Duotune is a browser tool that repaints a photo as a *duotone*: each pixel's
brightness picks a blend between two colours chosen in two colour pickers.
Edits are kept in an undo/redo history whose entries are labelled with the
time they were made. All of it lives in `script.js`; this project models the
four pieces of logic in that file, leaving the canvas, jQuery and DOM glue
aside:

- **Colour codec** (`color.dfy`, module `Color`): `hexToRGB` and `rgbToHex`.
  A colour is kept as its three byte numerators k (the program stores k/255);
  `rgbToHex` is modelled over real fractions in [0, 1], rounding with
  `Math.round`. For byte colours, which are all the colours the program
  produces, the round trip is exact in both directions (`RgbHexRoundTrip`,
  `HexRgbRoundTrip`).
- **Duotone pixel map** (`duotone.dfy`, module `Duotone`): the body of the
  loop in `applyDuotone`, as the pure function `MapPixels` over a flat RGBA
  byte sequence, and as the in-place loop `ApplyDuotone` proved equal to it.
  Brightness and blend are exact rationals. The blend is written as a
  byte plus a repeated sum of the weight (`Mix`, over `Times`), which is
  proved equal to the program's product formula.
- **Timestamp formatter** (`timestamp.dfy`, module `Timestamp`):
  `formatTimestamp`, with the `Date` getters' results given as a
  `DateFields` value. Two readers, `ClockOf` and `DateOf`, take a label
  apart again; they exist only to state what the label holds.
- **Undo/redo history** (`history.dfy`, module `History`): `saveState`,
  `undo`, `redo` and `restoreState` as functions on an `Editor` value that
  holds `historyStack`, `redoStack` and a `View`, which is the program's
  global state: the image `src`, the two colours and the two picker values.

`numeric.dfy` holds the byte type and `Round` (`Math.round`), and
`wrappers.dfy` holds `Option`.

The clock, the image source and the picker contents are parameters. Nothing
else is read from the environment.

## Model

| member | source | states |
|---|---|---|
| Numeric.Round | script.js:42 | `Math.round` gives the integer within half of its argument, with halves rounding up |
| Color.Fractions | script.js:31-33 | the stored array holds three fractions k/255, each in [0, 1], and scaling each by 255 and rounding gives its channel back |
| Color.ParseByte | script.js:31-33 | `parseInt` of two hex digits is the byte whose high nibble is the first digit's value and low nibble the second's |
| Color.HexBody | script.js:29 | for an optional `#` followed by six characters, the digits read are those six characters; at most one character, a leading `#`, is dropped (the program's `substring(1, 7)` also drops anything past the seventh character, see "## Left out") |
| Color.HexToRgb | script.js:28-35 | a colour comes back exactly when the string is an optional `#` followed by six hex digits of either case, and each channel is the value of its two-digit group |
| Color.ByteToHex | script.js:42-44 | a byte is written as exactly two lower-case hex digits that parse back to it |
| Color.ByteToHexOfParse | script.js:31-44 | parsing two hex digits and writing the byte back gives the same digits in lower case |
| Color.ChannelToHex | script.js:41-45 | a fraction in [0, 1] is written as two lower-case hex digits whose value is the rounded fraction times 255 |
| Color.JoinHex | script.js:40-46 | the joined string has two lower-case digits per channel, and digits 2j and 2j+1 are channel j's |
| Color.RgbToHex | script.js:37-48 | `#` followed by two lower-case hex digits per channel, channel j at positions 2j+1 and 2j+2 |
| Color.RgbToHexShape | script.js:37-48 | for a colour, the result has seven characters: `#` and six lower-case hex digits, which is again a well-formed picker value |
| Color.ChannelRoundTrip | script.js:31-44 | two hex digits, parsed to k/255 and written back, come out as the same digits in lower case |
| Color.RgbHexRoundTrip | script.js:28-48 | `hexToRGB(rgbToHex(c))` is `c` for every colour |
| Color.HexRgbRoundTrip | script.js:28-48 | for a well-formed picker value, `rgbToHex(hexToRGB(s))` is `#` plus its six digits lower-cased, with or without a leading `#` in `s` |
| Duotone.Brightness | script.js:73 | the luminance weight lies in [0, 1], is 0 exactly for black and 1 exactly for white |
| Duotone.LerpBetween | script.js:75-83 | moving from one value towards another by a weight in [0, 1] stays between the two |
| Duotone.LerpMonotone | script.js:73-83 | a heavier weight moves the interpolated value further towards the second endpoint |
| Duotone.MixIsSourceFormula | script.js:75-83 | the program's formula on the stored fractions, `(c1 * (1 - w) + c2 * w) * 255`, is the first byte moved towards the second by the weight |
| Duotone.MixBetween | script.js:75-83 | before rounding, a blended channel lies between the two colours' byte values for it |
| Duotone.Mix | script.js:75-83 | the unrounded blend is colour one's byte at weight 0, colour two's at weight 1, and that byte whenever the two agree; `MixIsSourceFormula` equates it with the program's formula |
| Duotone.Blend | script.js:75-83 | each output channel lies between the two colours' values for it, is colour one's value at weight 0 and colour two's at weight 1 |
| Duotone.BlendMonotone | script.js:73-83 | a heavier weight moves a channel monotonically from colour one's value towards colour two's |
| Duotone.MapPixel | script.js:70-83 | one loop iteration keeps the alpha byte and puts each of r, g, b between the two colours' values for that channel |
| Duotone.MapPixels | script.js:69-84 | the result has the input's length, and each four-byte pixel is mapped by one loop iteration from the same pixel of the input |
| Duotone.PixelsDetermine | script.js:69 | two buffers of whole pixels that agree pixel by pixel are equal, so the buffer is fully covered by the stride-4 loop |
| Duotone.ReplacePixel | script.js:75-83 | writing one pixel's bytes leaves every other pixel as it was |
| Duotone.ApplyDuotone | script.js:66-84 | rewriting the buffer in place, reading r, g, b before writing, computes the pure map `MapPixels` |
| Duotone.AlphaPassthrough | script.js:69-84 | the fourth byte of every pixel is the input's |
| Duotone.ChannelBounds | script.js:75-83 | every red, green and blue output lies between the two colours' values for that channel, hence in [0, 255] |
| Duotone.SameColours | script.js:75-83 | with both colours equal, every output pixel's colour is that colour, whatever the input |
| Duotone.WhiteAndBlack | script.js:73-83 | a white pixel becomes colour two and a black pixel colour one, alpha kept |
| Duotone.BrighterMovesTowardsTwo | script.js:73-83 | of two pixels, the brighter one's channel is at least as close to colour two's |
| Duotone.WhiteBlackBuffer | script.js:69-84 | the buffer white-then-black maps to colour two then colour one, alphas kept; with red and blue that is (0, 0, 255) then (255, 0, 0) |
| Timestamp.NatToString | script.js:14-19 | `toString()` of a natural number is one or more decimal digits, one digit exactly below 10, ending in the units digit, with no leading zero for any number but 0 |
| Timestamp.NatToStringRoundTrip | script.js:14-19 | the written digits read back as the number |
| Timestamp.IntToString | script.js:16 | `toString()` of an integer ends in a digit and has no space; from 0 on it is all digits reading as the number, below 0 it is `-` followed by digits reading as the magnitude; it is one character exactly for 0 to 9 |
| Timestamp.LastTwo | script.js:16 | `slice(-2)` keeps the last two characters, or the whole of a shorter string |
| Timestamp.PadTwo | script.js:19 | `padStart(2, "0")` puts zeros in front up to two characters and leaves longer strings alone |
| Timestamp.YearField | script.js:16 | the year field is one or two characters ending in a digit, with no space, and one character exactly for the years 0 to 9 |
| Timestamp.YearFieldValue | script.js:16 | for years from 0 on, the year field is the year modulo 100, one digit only for years 0 to 9 |
| Timestamp.Hour12 | script.js:18-23 | the shown hour is in 1 to 12; it is 12 exactly at hour 0 and hour 12, the hour itself in the morning and the hour minus 12 in the afternoon |
| Timestamp.Meridiem | script.js:20 | two characters ending in `m`, the first `p` exactly from hour 12 on and `a` exactly before |
| Timestamp.Hour12RoundTrip | script.js:18-23 | the 12-hour hour and `am`/`pm` together give back the 24-hour hour |
| Timestamp.HourField | script.js:18-25 | the hour is written with one or two digits, one exactly when the 12-hour hour is below 10 (no zero padding), reading as the 12-hour hour |
| Timestamp.MinuteField | script.js:19 | the minutes are always two digits whose value is the minute |
| Timestamp.DateField | script.js:14-16 | the date part `month/day/yy` has at least five characters, begins and ends with a digit and holds no space |
| Timestamp.DateFieldParses | script.js:14-16 | the date part reads back as `getMonth() + 1`, `getDate()` and the year field, where the reader accepts month and day only without a leading zero, as `${month}` and `${day}` write them |
| Timestamp.TimeField | script.js:18-25 | the time part `h:mm` plus `am` or `pm` has six or seven characters and holds no space |
| Timestamp.FormatTimestamp | script.js:13-26 | the label's only space sits right after the date part, so it splits back into date and time uniquely |
| Timestamp.TimeFieldChars | script.js:18-25 | read from its end, the time part is `am`/`pm` (`pm` exactly from hour 12 on), two digits reading as the minute, `:`, and the 12-hour hour in one digit exactly when it is below 10, otherwise two digits without a leading zero |
| Timestamp.ClockRoundTrip | script.js:13-26 | reading the clock off the end of a label gives back the hour and minute it was made from |
| Timestamp.DateRoundTrip | script.js:13-26 | reading the date before the label's first space, month and day without leading zeros, gives back the month counted from 1, the day and the year field it was made from |
| Timestamp.FormatTimestampShape | script.js:18-25 | a label ends in `pm` exactly from hour 12 on and in `am` before, preceded by `:` and two digits |
| History.Current | script.js:119 | the current entry is the top of the history, and there is none exactly when the history is empty |
| History.RestoreState | script.js:105-114 | neither stack changes, the view shows the snapshot's image and colours, and each picker holds `#` and six lower-case hex digits reading as the snapshot's colour (`Displays`) |
| History.PickerValueDetermined | script.js:110-111 | two picker values in `rgbToHex` form that read as the same colour are the same string, so `Displays` fixes each picker's text exactly |
| History.SaveState | script.js:93-103 | exactly one snapshot of the view, labelled with the given time, goes on top; earlier entries are unchanged, the redo stack is empty and the view is untouched |
| History.Undo | script.js:116-121 | a no-op with at most one entry; otherwise the top entry moves onto the redo stack, the entry below is current and shown, both pickers hold `#` and six lower-case digits reading as its colours, and the total number of entries is kept |
| History.Redo | script.js:123-129 | a no-op with an empty redo stack; otherwise its top entry moves onto the history and is current and shown, both pickers hold `#` and six lower-case digits reading as its colours, and the total number of entries is kept |
| History.ReversePush | script.js:118 | pushing onto a stack puts the entry first in the stack read from the top |
| History.UndoKeepsTimeline | script.js:116-121 | undo leaves the sequence history-then-redo-stack-from-top unchanged |
| History.RedoKeepsTimeline | script.js:123-129 | redo leaves the sequence history-then-redo-stack-from-top unchanged |
| History.SaveCutsTimeline | script.js:93-103 | after a save the whole timeline is the old history plus the new snapshot, so the undone branch is discarded |
| History.UndoThenRedo | script.js:116-129 | a successful undo followed by redo restores both stacks exactly and displays the entry that was current, pickers included |
| History.RedoThenUndo | script.js:116-129 | a redo followed by undo restores both stacks exactly, and displays the current entry, pickers included, when there was one |
| History.RedoAfterSaveIsNoOp | script.js:101-129 | after a save, including a save after an undo, redo changes nothing |
| History.BaselineKept | script.js:116-121 | undo never empties a non-empty history, and with a single entry it changes nothing and the baseline stays current |
| History.ViewFollowsCurrent | script.js:93-129 | if the view shows the current entry, it still does after save, undo and redo |
| History.SaveUndoRedoScenario | script.js:93-129 | save A, save B, undo shows A, redo shows B, then save C leaves nothing to redo |

## Left out

- Canvas and image plumbing (`getImageData`, `putImageData`, `drawImage`, `toDataURL`, `Image` loading, `FileReader`, the file picker and the network photo URL): browser APIs with no logic of their own. The buffer `MapPixels` receives is what `getImageData` returns; the `src` a snapshot holds is an opaque string.
- `setLoading`, `updateHistoryPanel`, the dropdown toggles, the export link and the document click handler: DOM rendering only.
- `getRandomPreset`, `Math.random`, `Date.now` and `new Date()`: the random choice is not modelled, and the clock reading is the `DateFields` parameter of `SaveState`.
- `applyPresetColors`, `setColorsFromPickersAndApply`, `loadImage` and the `ready` handler: they only order calls to the modelled operations. In the first two, `saveState` runs before `applyDuotone`, so the snapshot pairs the new colours with the image rendered from the old ones; that ordering is not part of the model.
- Color.HexToRgb: returns None for every string that is not an optional `#` and exactly six hex digits. The program does no validation: it reads the first six characters after an optional `#` (so longer strings still parse) and yields `NaN` or a partial `parseInt` value for non-hex input. Those results are not imitated.
- Color.RgbToHex: requires every fraction to be in [0, 1]. Outside that range the program would write three digits or a minus sign. The initial colour constants (0.85, 0.15, …) are not byte fractions, but the `ready` handler replaces them with `hexToRGB` values before any use.
- Duotone.Blend: computed with exact rationals, where the program uses IEEE doubles. The two agree except possibly where the exact value is within rounding error of a half, so bit-for-bit agreement at .5 boundaries is not claimed. The store into the `Uint8ClampedArray` is not modelled, because `ChannelBounds` shows every value written is already an integer in [0, 255].
- Timestamp.FormatTimestamp: takes the `Date` getters' results as inputs within the getters' ranges. It does not check that the day exists in the month. Negative years are written with a `-` as `toString` does; `YearFieldValue` speaks only of years from 0 on, and for negative years only the shape in `YearField`'s contract is proved.

=== FILE: color.dfy ===
/** The colour codec of the editor: `hexToRGB` parses a colour-picker value
    such as `#d92626` into three fractions k/255, and `rgbToHex` turns
    fractions in [0, 1] back into `#` and six lower-case hex digits.

    Every colour the editor works with comes out of `hexToRGB`, so a colour
    is represented by its three byte numerators; `Fractions` gives the
    fractions the program actually stores. */
module Color {
  import opened Numeric
  import opened Wrappers

  /** A colour as the numerators of its red, green and blue fractions. */
  datatype Rgb = Rgb(r: byte, g: byte, b: byte)

  /** The fraction k/255 that `hexToRGB` stores for a channel value k. */
  function Fraction(k: byte): real
  {
    k as real / 255.0
  }

  /** The three-element array `[r/255, g/255, b/255]` the program keeps.
      Each fraction lies in [0, 1], and scaling it by 255 and rounding gives
      the channel back. */
  function Fractions(c: Rgb): (f: seq<real>)
    ensures |f| == 3
    ensures forall i :: 0 <= i < |f| ==> 0.0 <= f[i] <= 1.0
    ensures Round(f[0] * 255.0) == c.r && Round(f[1] * 255.0) == c.g && Round(f[2] * 255.0) == c.b
  {
    ScaleFraction(c.r);
    ScaleFraction(c.g);
    ScaleFraction(c.b);
    [Fraction(c.r), Fraction(c.g), Fraction(c.b)]
  }

  // ---------------------------------------------------------------------
  // Hex digits

  predicate IsHexDigit(c: char)
  {
    '0' <= c <= '9' || 'a' <= c <= 'f' || 'A' <= c <= 'F'
  }

  predicate IsLowerHexDigit(c: char)
  {
    '0' <= c <= '9' || 'a' <= c <= 'f'
  }

  /** The value of one hex digit, either case, as `parseInt(_, 16)` reads it. */
  function DigitValue(c: char): (v: nat)
    requires IsHexDigit(c)
    ensures v < 16
  {
    if '0' <= c <= '9' then c as int - '0' as int
    else if 'a' <= c <= 'f' then c as int - 'a' as int + 10
    else c as int - 'A' as int + 10
  }

  /** The lower-case digit `Number.prototype.toString(16)` writes for `v`. */
  function HexDigit(v: nat): (c: char)
    requires v < 16
    ensures IsLowerHexDigit(c)
    ensures DigitValue(c) == v
  {
    if v < 10 then ('0' as int + v) as char else ('a' as int + v - 10) as char
  }

  /** A hex digit with its letter, if any, in lower case. */
  function LowerDigit(c: char): char
    requires IsHexDigit(c)
  {
    if 'A' <= c <= 'F' then (c as int - 'A' as int + 'a' as int) as char else c
  }

  /** Writing a digit's value back gives the digit in lower case. */
  lemma HexDigitOfValue(c: char)
    requires IsHexDigit(c)
    ensures HexDigit(DigitValue(c)) == LowerDigit(c)
  {
  }

  /** A string of hex digits with every letter lower-cased. */
  function LowerHex(s: string): (t: string)
    requires forall i :: 0 <= i < |s| ==> IsHexDigit(s[i])
    ensures |t| == |s|
    ensures forall i :: 0 <= i < |s| ==> t[i] == LowerDigit(s[i])
  {
    seq(|s|, i requires 0 <= i < |s| => LowerDigit(s[i]))
  }

  // ---------------------------------------------------------------------
  // One channel

  /** `parseInt(s, 16)` of a two-digit substring. */
  function ParseByte(s: string): (k: byte)
    requires |s| == 2 && IsHexDigit(s[0]) && IsHexDigit(s[1])
    ensures k / 16 == DigitValue(s[0]) && k % 16 == DigitValue(s[1])
  {
    DigitValue(s[0]) * 16 + DigitValue(s[1])
  }

  /** `k.toString(16).padStart(2, "0")`. */
  function ByteToHex(k: byte): (s: string)
    ensures |s| == 2 && IsLowerHexDigit(s[0]) && IsLowerHexDigit(s[1])
    ensures ParseByte(s) == k
  {
    [HexDigit(k / 16), HexDigit(k % 16)]
  }

  /** Parsing two digits and writing them back lower-cases them. */
  lemma ByteToHexOfParse(s: string)
    requires |s| == 2 && IsHexDigit(s[0]) && IsHexDigit(s[1])
    ensures ByteToHex(ParseByte(s)) == LowerHex(s)
  {
    var k := ParseByte(s);
    HexDigitOfValue(s[0]);
    HexDigitOfValue(s[1]);
  }

  /** `Math.round(x * 255).toString(16).padStart(2, "0")` for one fraction. */
  function ChannelToHex(x: real): (s: string)
    requires 0.0 <= x <= 1.0
    ensures |s| == 2 && IsLowerHexDigit(s[0]) && IsLowerHexDigit(s[1])
    ensures ParseByte(s) == Round(x * 255.0)
  {
    ByteToHex(Round(x * 255.0))
  }

  /** Scaling a stored fraction back by 255 and rounding recovers the byte. */
  lemma ScaleFraction(k: byte)
    ensures Round(Fraction(k) * 255.0) == k
  {
    assert Fraction(k) * 255.0 == k as real;
  }

  // ---------------------------------------------------------------------
  // hexToRGB

  /** The six digits `hexToRGB` reads: everything after a leading `#`, or the
      whole string. At most one character is dropped, and it is a `#`. */
  function HexBody(h: string): (b: string)
    ensures |h| - 1 <= |b| <= |h| && b == h[|h| - |b|..]
    ensures |b| < |h| <==> |h| > 0 && h[0] == '#'
  {
    if |h| > 0 && h[0] == '#' then h[1..] else h
  }

  /** An optional `#` followed by exactly six hex digits of either case. */
  predicate WellFormedHex(h: string)
  {
    var body := HexBody(h);
    |body| == 6 && forall i :: 0 <= i < 6 ==> IsHexDigit(body[i])
  }

  /** `hexToRGB`: the colour whose channels are the three two-digit groups,
      or None for a string that is not an optional `#` and six hex digits. */
  function HexToRgb(h: string): (c: Option<Rgb>)
    ensures c.Some? <==> WellFormedHex(h)
    ensures c.Some? ==>
      var body := HexBody(h);
      && c.value.r == ParseByte(body[0..2])
      && c.value.g == ParseByte(body[2..4])
      && c.value.b == ParseByte(body[4..6])
  {
    var body := HexBody(h);
    if |body| == 6 && forall i :: 0 <= i < 6 ==> IsHexDigit(body[i]) then
      Some(Rgb(ParseByte(body[0..2]), ParseByte(body[2..4]), ParseByte(body[4..6])))
    else
      None
  }

  // ---------------------------------------------------------------------
  // rgbToHex

  /** The channels of `rgb`, each as two hex digits, concatenated. */
  function {:induction false} JoinHex(rgb: seq<real>): (s: string)
    requires forall i :: 0 <= i < |rgb| ==> 0.0 <= rgb[i] <= 1.0
    ensures |s| == 2 * |rgb|
    ensures forall i :: 0 <= i < |s| ==> IsLowerHexDigit(s[i])
    ensures forall j :: 0 <= j < |rgb| ==> s[2 * j..2 * j + 2] == ChannelToHex(rgb[j])
  {
    if |rgb| == 0 then ""
    else
      var rest := JoinHex(rgb[1..]);
      var s := ChannelToHex(rgb[0]) + rest;
      assert forall j :: 1 <= j < |rgb| ==> s[2 * j..2 * j + 2] == rest[2 * (j - 1)..2 * (j - 1) + 2];
      s
  }

  /** `rgbToHex`: `#` followed by two lower-case hex digits per fraction. */
  function RgbToHex(rgb: seq<real>): (s: string)
    requires forall i :: 0 <= i < |rgb| ==> 0.0 <= rgb[i] <= 1.0
    ensures |s| == 1 + 2 * |rgb| && s[0] == '#'
    ensures forall i :: 1 <= i < |s| ==> IsLowerHexDigit(s[i])
    ensures forall j :: 0 <= j < |rgb| ==> s[2 * j + 1..2 * j + 3] == ChannelToHex(rgb[j])
  {
    var digits := JoinHex(rgb);
    var s := "#" + digits;
    assert forall j :: 0 <= j < |rgb| ==> s[2 * j + 1..2 * j + 3] == digits[2 * j..2 * j + 2];
    s
  }

  /** For a colour from the picker, `rgbToHex` always writes seven characters:
      `#` and six lower-case hex digits. */
  lemma RgbToHexShape(c: Rgb)
    ensures var s := RgbToHex(Fractions(c));
      |s| == 7 && s[0] == '#' && WellFormedHex(s) && forall i :: 1 <= i < 7 ==> IsLowerHexDigit(s[i])
  {
  }

  // ---------------------------------------------------------------------
  // Round trips

  /** Writing a colour out and parsing it back gives the same colour. */
  lemma RgbHexRoundTrip(c: Rgb)
    ensures HexToRgb(RgbToHex(Fractions(c))) == Some(c)
  {
    var f := Fractions(c);
    var s := RgbToHex(f);
    ScaleFraction(c.r);
    ScaleFraction(c.g);
    ScaleFraction(c.b);
    assert s[1..3] == ChannelToHex(f[0]);
    assert s[3..5] == ChannelToHex(f[1]);
    assert s[5..7] == ChannelToHex(f[2]);
    var body := HexBody(s);
    assert body == s[1..];
    assert body[0..2] == s[1..3] && body[2..4] == s[3..5] && body[4..6] == s[5..7];
    assert WellFormedHex(s);
  }

  /** One channel of the round trip: two digits, parsed and written back. */
  lemma ChannelRoundTrip(d: string)
    requires |d| == 2 && IsHexDigit(d[0]) && IsHexDigit(d[1])
    ensures ChannelToHex(Fraction(ParseByte(d))) == LowerHex(d)
  {
    ScaleFraction(ParseByte(d));
    ByteToHexOfParse(d);
  }

  /** Parsing a well-formed picker value and writing it back gives `#` and its
      six digits in lower case, whether or not it had a `#`. */
  lemma HexRgbRoundTrip(h: string)
    requires WellFormedHex(h)
    ensures HexToRgb(h).Some?
    ensures RgbToHex(Fractions(HexToRgb(h).value)) == "#" + LowerHex(HexBody(h))
  {
    var body := HexBody(h);
    var c := HexToRgb(h).value;
    var f := Fractions(c);
    var s := RgbToHex(f);
    var lower := LowerHex(body);
    ChannelRoundTrip(body[0..2]);
    ChannelRoundTrip(body[2..4]);
    ChannelRoundTrip(body[4..6]);
    assert LowerHex(body[0..2]) == lower[0..2];
    assert LowerHex(body[2..4]) == lower[2..4];
    assert LowerHex(body[4..6]) == lower[4..6];
    assert s[1..3] == ChannelToHex(f[0]) == lower[0..2];
    assert s[3..5] == ChannelToHex(f[1]) == lower[2..4];
    assert s[5..7] == ChannelToHex(f[2]) == lower[4..6];
    assert s[1..] == lower by {
      assert forall i :: 0 <= i < 6 ==> s[1..][i] == lower[i] by {
        forall i | 0 <= i < 6
          ensures s[1..][i] == lower[i]
        {
          if i < 2 { assert s[1..][i] == s[1..3][i]; }
          else if i < 4 { assert s[1..][i] == s[3..5][i - 2] && lower[i] == lower[2..4][i - 2]; }
          else { assert s[1..][i] == s[5..7][i - 4] && lower[i] == lower[4..6][i - 4]; }
        }
      }
    }
  }
}

=== FILE: duotone.dfy ===
/** The duotone effect of `applyDuotone`: every pixel of an RGBA buffer is
    repainted with a blend of colour one and colour two, weighted by the
    pixel's brightness; the alpha byte of each pixel is left alone.

    The program computes in IEEE doubles; here the brightness and the blend
    are exact rationals, and `Math.round` is `Round`. */
module Duotone {
  import opened Numeric
  import opened Color

  /** `(0.299 r + 0.587 g + 0.114 b) / 255`, as the exact rational
      `(299 r + 587 g + 114 b) / 255000`. Black weighs 0 and white 1. */
  function Brightness(r: byte, g: byte, b: byte): (w: real)
    ensures 0.0 <= w <= 1.0
    ensures w == 0.0 <==> r == 0 && g == 0 && b == 0
    ensures w == 1.0 <==> r == 255 && g == 255 && b == 255
  {
    (299 * r + 587 * g + 114 * b) as real / 255000.0
  }

  /** `a` moved towards `b` by the weight `w`. */
  function Lerp(a: real, b: real, w: real): real
  {
    a + (b - a) * w
  }

  /** The product of two non-negative reals is non-negative. */
  lemma MulNonneg(x: real, y: real)
    requires 0.0 <= x && 0.0 <= y
    ensures 0.0 <= x * y
  {
  }

  /** Moving from `a` towards `b` by a weight in [0, 1] stays between them. */
  lemma LerpBetween(a: real, b: real, w: real)
    requires 0.0 <= w <= 1.0
    ensures a <= b ==> a <= Lerp(a, b, w) <= b
    ensures b <= a ==> b <= Lerp(a, b, w) <= a
  {
    var d := b - a;
    assert d * w + d * (1.0 - w) == d;
    if a <= b {
      MulNonneg(d, w);
      MulNonneg(d, 1.0 - w);
    } else {
      MulNonneg(-d, w);
      MulNonneg(-d, 1.0 - w);
      assert (-d) * w == -(d * w) && (-d) * (1.0 - w) == -(d * (1.0 - w));
    }
  }

  /** A heavier weight moves further from `a` towards `b`. */
  lemma LerpMonotone(a: real, b: real, w: real, w': real)
    requires w <= w'
    ensures a <= b ==> Lerp(a, b, w) <= Lerp(a, b, w')
    ensures b <= a ==> Lerp(a, b, w') <= Lerp(a, b, w)
  {
    var d := b - a;
    assert d * w' - d * w == d * (w' - w);
    if a <= b {
      MulNonneg(d, w' - w);
    } else {
      MulNonneg(-d, w' - w);
      assert (-d) * (w' - w) == -(d * (w' - w));
    }
  }

  /** `k w`, as `w` added up `k` times. The blend is written with `Times`
      rather than `*` so that its definition stays linear in its unknowns;
      `TimesIsProduct` shows that it is the product. */
  function Times(k: nat, w: real): real
    decreases k
  {
    if k == 0 then 0.0 else Times(k - 1, w) + w
  }

  lemma {:induction false} TimesIsProduct(k: nat, w: real)
    ensures Times(k, w) == k as real * w
    decreases k
  {
    if k > 0 {
      TimesIsProduct(k - 1, w);
      assert (k - 1) as real * w + w == k as real * w;
    }
  }

  /** The blend of two byte values: `k1 (1 - w) + k2 w`, which is the
      program's `(c1 (1 - w) + c2 w) * 255` for the stored fractions
      c1 = k1/255 and c2 = k2/255. */
  function Mix(k1: byte, k2: byte, w: real): (m: real)
    ensures w == 0.0 ==> m == k1 as real
    ensures w == 1.0 ==> m == k2 as real
    ensures k1 == k2 ==> m == k1 as real
  {
    TimesIsProduct(k1, w);
    TimesIsProduct(k2, w);
    k1 as real - Times(k1, w) + Times(k2, w)
  }

  /** `Mix` is the program's formula on the stored fractions, and the point
      that lies `w` of the way from `k1` to `k2`. */
  lemma MixIsSourceFormula(k1: byte, k2: byte, w: real)
    ensures Mix(k1, k2, w) == (Fraction(k1) * (1.0 - w) + Fraction(k2) * w) * 255.0
    ensures Mix(k1, k2, w) == Lerp(k1 as real, k2 as real, w)
  {
    TimesIsProduct(k1, w);
    TimesIsProduct(k2, w);
  }

  /** The blend stays between its endpoints and meets them at weights 0 and 1. */
  lemma MixBetween(k1: byte, k2: byte, w: real)
    requires 0.0 <= w <= 1.0
    ensures Min(k1, k2) as real <= Mix(k1, k2, w) <= Max(k1, k2) as real
    ensures w == 0.0 ==> Mix(k1, k2, w) == k1 as real
    ensures w == 1.0 ==> Mix(k1, k2, w) == k2 as real
  {
    MixIsSourceFormula(k1, k2, w);
    LerpBetween(k1 as real, k2 as real, w);
  }

  /** One output channel: `Math.round((c1 (1 - w) + c2 w) * 255)` for the two
      colours' fractions c1 = k1/255 and c2 = k2/255. It lies between the two
      endpoints, is `k1` for weight 0 and `k2` for weight 1. */
  function Blend(k1: byte, k2: byte, w: real): (v: byte)
    requires 0.0 <= w <= 1.0
    ensures Min(k1, k2) <= v <= Max(k1, k2)
    ensures w == 0.0 ==> v == k1
    ensures w == 1.0 ==> v == k2
  {
    MixBetween(k1, k2, w);
    Round(Mix(k1, k2, w))
  }

  /** A heavier weight moves every channel further from colour one towards
      colour two. */
  lemma BlendMonotone(k1: byte, k2: byte, w: real, w': real)
    requires 0.0 <= w <= w' <= 1.0
    ensures k1 <= k2 ==> Blend(k1, k2, w) <= Blend(k1, k2, w')
    ensures k2 <= k1 ==> Blend(k1, k2, w') <= Blend(k1, k2, w)
  {
    var x, x' := Mix(k1, k2, w), Mix(k1, k2, w');
    MixIsSourceFormula(k1, k2, w);
    MixIsSourceFormula(k1, k2, w');
    LerpMonotone(k1 as real, k2 as real, w, w');
    if k1 <= k2 {
      RoundMonotone(x, x');
    } else {
      RoundMonotone(x', x);
    }
  }

  /** Blending a colour with itself gives that colour, whatever the weight. */
  lemma BlendSame(k: byte, w: real)
    requires 0.0 <= w <= 1.0
    ensures Blend(k, k, w) == k
  {
  }

  /** One iteration of the loop: the new value of a four-byte pixel
      `[r, g, b, a]`. */
  function MapPixel(px: seq<byte>, one: Rgb, two: Rgb): (q: seq<byte>)
    requires |px| == 4
    ensures |q| == 4 && q[3] == px[3]
    ensures forall c :: 0 <= c < 3 ==> Min(Channel(one, c), Channel(two, c)) <= q[c] <= Max(Channel(one, c), Channel(two, c))
  {
    var w := Brightness(px[0], px[1], px[2]);
    [Blend(one.r, two.r, w), Blend(one.g, two.g, w), Blend(one.b, two.b, w), px[3]]
  }

  /** Pixel `j` of a buffer: its bytes `4j` to `4j + 3`. */
  function Pixel(data: seq<byte>, j: nat): (px: seq<byte>)
    requires 4 * j + 4 <= |data|
    ensures |px| == 4
  {
    data[4 * j..4 * j + 4]
  }

  /** Two buffers of whole pixels that agree pixel by pixel are equal. */
  lemma PixelsDetermine(a: seq<byte>, b: seq<byte>)
    requires |a| == |b| && |a| % 4 == 0
    requires forall j: nat :: 4 * j + 4 <= |a| ==> Pixel(a, j) == Pixel(b, j)
    ensures a == b
  {
    forall k | 0 <= k < |a|
      ensures a[k] == b[k]
    {
      var j := k / 4;
      assert Pixel(a, j)[k - 4 * j] == a[k];
      assert Pixel(b, j)[k - 4 * j] == b[k];
    }
  }

  /** Pixel `j` of a buffer is pixel `j - 1` of the buffer without its
      first pixel. */
  lemma PixelOfTail(data: seq<byte>, j: nat)
    requires 1 <= j && 4 * j + 4 <= |data|
    ensures Pixel(data, j) == Pixel(data[4..], j - 1)
  {
  }

  /** The duotone map over a whole buffer: each pixel is replaced by
      `MapPixel` of it, and the length is kept. */
  function {:induction false} MapPixels(data: seq<byte>, one: Rgb, two: Rgb): (out: seq<byte>)
    requires |data| % 4 == 0
    ensures |out| == |data|
    ensures forall j: nat :: 4 * j + 4 <= |data| ==> Pixel(out, j) == MapPixel(Pixel(data, j), one, two)
    decreases |data|
  {
    if |data| == 0 then []
    else
      var head := MapPixel(data[..4], one, two);
      var rest := MapPixels(data[4..], one, two);
      var out := head + rest;
      forall j: nat | 4 * j + 4 <= |data|
        ensures Pixel(out, j) == MapPixel(Pixel(data, j), one, two)
      {
        if j == 0 {
          assert Pixel(data, j) == data[..4];
          assert Pixel(out, j) == head;
        } else {
          PixelOfTail(data, j);
          PixelOfTail(out, j);
        }
      }
      out
  }

  /** Overwriting pixel `p` changes no other pixel. */
  lemma ReplacePixel(a: seq<byte>, p: nat, q: seq<byte>)
    requires 4 * p + 4 <= |a| && |q| == 4
    ensures var b := a[..4 * p] + q + a[4 * p + 4..];
      && |b| == |a| && Pixel(b, p) == q && b[4 * p + 4..] == a[4 * p + 4..]
      && forall j: nat :: j < p ==> Pixel(b, j) == Pixel(a, j)
  {
    var b := a[..4 * p] + q + a[4 * p + 4..];
    forall j: nat | j < p
      ensures Pixel(b, j) == Pixel(a, j)
    {
      assert Pixel(b, j) == a[..4 * p][4 * j..4 * j + 4];
    }
  }

  /** `applyDuotone`'s loop as written: the buffer is rewritten in place,
      four bytes at a time, reading r, g and b before overwriting them. */
  method ApplyDuotone(data: seq<byte>, one: Rgb, two: Rgb) returns (out: seq<byte>)
    requires |data| % 4 == 0
    ensures out == MapPixels(data, one, two)
  {
    out := data;
    var i := 0;
    ghost var p: nat := 0;
    while i < |out|
      invariant |out| == |data|
      invariant i == 4 * p <= |data|
      invariant forall j: nat :: j < p ==> Pixel(out, j) == MapPixel(Pixel(data, j), one, two)
      invariant out[i..] == data[i..]
    {
      var r := out[i];
      var g := out[i + 1];
      var b := out[i + 2];
      var brightness := Brightness(r, g, b);
      ghost var before := out;
      assert Pixel(data, p) == out[i..i + 4];
      out := out[i := Blend(one.r, two.r, brightness)];
      out := out[i + 1 := Blend(one.g, two.g, brightness)];
      out := out[i + 2 := Blend(one.b, two.b, brightness)];
      ghost var q := MapPixel(Pixel(data, p), one, two);
      assert out == before[..i] + q + before[i + 4..];
      ReplacePixel(before, p, q);
      assert before[i + 4..] == before[i..][4..] == data[i..][4..] == data[i + 4..];
      i := i + 4;
      p := p + 1;
    }
    PixelsDetermine(out, MapPixels(data, one, two));
  }

  // ---------------------------------------------------------------------
  // Properties of the map

  /** Every alpha byte (the fourth of each pixel) is passed through. */
  lemma AlphaPassthrough(data: seq<byte>, one: Rgb, two: Rgb)
    requires |data| % 4 == 0
    ensures forall j: nat :: 4 * j + 4 <= |data| ==> MapPixels(data, one, two)[4 * j + 3] == data[4 * j + 3]
  {
    var out := MapPixels(data, one, two);
    forall j: nat | 4 * j + 4 <= |data|
      ensures out[4 * j + 3] == data[4 * j + 3]
    {
      assert Pixel(out, j)[3] == out[4 * j + 3];
      assert Pixel(data, j)[3] == data[4 * j + 3];
    }
  }

  /** The endpoint colour's value for channel `c` (0 red, 1 green, 2 blue). */
  function Channel(col: Rgb, c: nat): byte
  {
    if c == 0 then col.r else if c == 1 then col.g else col.b
  }

  /** Every red, green and blue output lies between the two colours' values
      for that channel, so the clamping of the canvas buffer never applies. */
  lemma ChannelBounds(data: seq<byte>, one: Rgb, two: Rgb)
    requires |data| % 4 == 0
    ensures forall j: nat, c: nat :: 4 * j + 4 <= |data| && c < 3 ==>
      Min(Channel(one, c), Channel(two, c)) <= Pixel(MapPixels(data, one, two), j)[c] <= Max(Channel(one, c), Channel(two, c))
  {
  }

  /** With both colours equal, every pixel's colour is that colour. */
  lemma SameColours(data: seq<byte>, col: Rgb)
    requires |data| % 4 == 0
    ensures forall j: nat, c: nat :: 4 * j + 4 <= |data| && c < 3 ==> Pixel(MapPixels(data, col, col), j)[c] == Channel(col, c)
  {
    var out := MapPixels(data, col, col);
    forall j: nat, c: nat | 4 * j + 4 <= |data| && c < 3
      ensures Pixel(out, j)[c] == Channel(col, c)
    {
      var px := Pixel(data, j);
      BlendSame(Channel(col, c), Brightness(px[0], px[1], px[2]));
    }
  }

  /** A white pixel becomes colour two and a black pixel colour one, their
      alpha unchanged. */
  lemma WhiteAndBlack(px: seq<byte>, one: Rgb, two: Rgb)
    requires |px| == 4
    ensures px[0] == 255 && px[1] == 255 && px[2] == 255 ==> MapPixel(px, one, two) == [two.r, two.g, two.b, px[3]]
    ensures px[0] == 0 && px[1] == 0 && px[2] == 0 ==> MapPixel(px, one, two) == [one.r, one.g, one.b, px[3]]
  {
  }

  /** A brighter pixel is drawn at least as far towards colour two, channel by
      channel. */
  lemma BrighterMovesTowardsTwo(px: seq<byte>, px': seq<byte>, one: Rgb, two: Rgb, c: nat)
    requires |px| == 4 && |px'| == 4 && c < 3
    requires Brightness(px[0], px[1], px[2]) <= Brightness(px'[0], px'[1], px'[2])
    ensures Channel(one, c) <= Channel(two, c) ==> MapPixel(px, one, two)[c] <= MapPixel(px', one, two)[c]
    ensures Channel(two, c) <= Channel(one, c) ==> MapPixel(px', one, two)[c] <= MapPixel(px, one, two)[c]
  {
    BlendMonotone(Channel(one, c), Channel(two, c), Brightness(px[0], px[1], px[2]), Brightness(px'[0], px'[1], px'[2]));
  }

  /** A buffer holding one white and one black pixel: the white pixel takes
      colour two and the black one colour one, each keeping its alpha. With
      colour one red and colour two blue, white becomes `(0, 0, 255)` and
      black `(255, 0, 0)`. */
  lemma WhiteBlackBuffer(a1: byte, a2: byte, one: Rgb, two: Rgb)
    ensures MapPixels([255, 255, 255, a1, 0, 0, 0, a2], one, two)
         == [two.r, two.g, two.b, a1, one.r, one.g, one.b, a2]
  {
    var data: seq<byte> := [255, 255, 255, a1, 0, 0, 0, a2];
    var white, black := data[..4], data[4..];
    assert white == [255, 255, 255, a1] && black == [0, 0, 0, a2];
    TwoPixelBuffer(data, one, two);
    WhiteAndBlack(white, one, two);
    WhiteAndBlack(black, one, two);
  }

  /** A buffer of two pixels maps to the two mapped pixels. */
  lemma TwoPixelBuffer(data: seq<byte>, one: Rgb, two: Rgb)
    requires |data| == 8
    ensures MapPixels(data, one, two) == MapPixel(data[..4], one, two) + MapPixel(data[4..], one, two)
  {
    var rest := data[4..];
    assert rest[..4] == rest && rest[4..] == [];
    assert MapPixels(rest, one, two) == MapPixel(rest, one, two) + MapPixels([], one, two);
  }
}

=== FILE: history.dfy ===
/** The undo/redo history: `historyStack` (oldest first, the current state on
    top) and `redoStack` (the most recently undone entry on top), driven by
    `saveState`, `undo`, `redo` and `restoreState`.

    The global variables the program keeps, the image's `src`, the two
    colours and the two colour pickers, are gathered in a `View`; every
    operation is a pure function from one editor state to the next. */
module History {
  import opened Wrappers
  import opened Color
  import opened Timestamp

  /** One history entry: the image source, the two colours in effect, and
      the label shown in the history panel. */
  datatype Snapshot = Snapshot(imageSrc: string, one: Rgb, two: Rgb, timestamp: string)

  /** What the user sees: the image's `src` (empty when it has none), the two
      colours the next duotone will use, and the two colour pickers' values. */
  datatype View = View(imageSrc: string, one: Rgb, two: Rgb, pickerOne: string, pickerTwo: string)

  /** The two stacks, each with its top at the end, and the view. */
  datatype Editor = Editor(history: seq<Snapshot>, redo: seq<Snapshot>, view: View)

  /** A picker value is the one `rgbToHex` writes for the colour it reads
      as, so two picker values that read as the same colour are equal. */
  lemma PickerValueDetermined(p: string, q: string)
    requires PickerValue(p) && PickerValue(q)
    requires HexToRgb(p).Some? && HexToRgb(p) == HexToRgb(q)
    ensures p == q
  {
    PickerIsWritten(p);
    PickerIsWritten(q);
  }

  /** Writing back the colour a picker value reads as gives the value. */
  lemma PickerIsWritten(p: string)
    requires PickerValue(p) && HexToRgb(p).Some?
    ensures RgbToHex(Fractions(HexToRgb(p).value)) == p
  {
    var body := HexBody(p);
    assert body == p[1..];
    assert WellFormedHex(p);
    HexRgbRoundTrip(p);
    assert LowerHex(body) == body;
    assert "#" + body == p;
  }

  /** Whether the view shows the snapshot's image and colours. */
  predicate Shows(v: View, s: Snapshot)
  {
    v.imageSrc == s.imageSrc && v.one == s.one && v.two == s.two
  }

  /** What `rgbToHex` writes into a colour picker: `#` and six lower-case
      hex digits. */
  predicate PickerValue(p: string)
  {
    |p| == 7 && p[0] == '#' && forall i :: 1 <= i < 7 ==> IsLowerHexDigit(p[i])
  }

  /** Whether the view shows the snapshot and both colour pickers hold
      picker values that read back as its two colours. Together these fix
      each picker's text exactly. */
  predicate Displays(v: View, s: Snapshot)
  {
    && Shows(v, s)
    && PickerValue(v.pickerOne) && HexToRgb(v.pickerOne) == Some(s.one)
    && PickerValue(v.pickerTwo) && HexToRgb(v.pickerTwo) == Some(s.two)
  }

  /** The entry the editor is at: the top of the history, if any. */
  function Current(e: Editor): (c: Option<Snapshot>)
    ensures c.None? <==> e.history == []
    ensures c.Some? ==> c.value == e.history[|e.history| - 1]
  {
    if e.history == [] then None else Some(e.history[|e.history| - 1])
  }

  // ---------------------------------------------------------------------
  // Operations

  /** `restoreState`: the view takes the snapshot's image and colours and the
      pickers show the colours in hex; neither stack changes. Re-reading the
      pickers gives back exactly the snapshot's colours. */
  function RestoreState(e: Editor, s: Snapshot): (e': Editor)
    ensures e'.history == e.history && e'.redo == e.redo
    ensures Displays(e'.view, s)
  {
    RgbHexRoundTrip(s.one);
    RgbHexRoundTrip(s.two);
    RgbToHexShape(s.one);
    RgbToHexShape(s.two);
    e.(view := View(s.imageSrc, s.one, s.two, RgbToHex(Fractions(s.one)), RgbToHex(Fractions(s.two))))
  }

  /** `saveState`: one snapshot of the view, labelled with the time `now`,
      goes on top of the history; earlier entries stay as they were and the
      redo stack is emptied. */
  function SaveState(e: Editor, now: DateFields): (e': Editor)
    requires Valid(now)
    ensures |e'.history| == |e.history| + 1
    ensures e'.history[..|e.history|] == e.history
    ensures Current(e') == Some(e'.history[|e.history|])
    ensures Shows(e.view, e'.history[|e.history|])
    ensures e'.history[|e.history|].timestamp == FormatTimestamp(now)
    ensures e'.redo == []
    ensures e'.view == e.view
  {
    var snap := Snapshot(e.view.imageSrc, e.view.one, e.view.two, FormatTimestamp(now));
    Editor(e.history + [snap], [], e.view)
  }

  /** `undo`: with at least two entries, the top entry moves onto the redo
      stack and the entry below it is restored; otherwise nothing happens. */
  function Undo(e: Editor): (e': Editor)
    ensures |e.history| <= 1 ==> e' == e
    ensures |e.history| > 1 ==>
      var n := |e.history|;
      && e'.history == e.history[..n - 1]
      && e'.redo == e.redo + [e.history[n - 1]]
      && Current(e') == Some(e.history[n - 2])
      && Displays(e'.view, e.history[n - 2])
    ensures |e'.history| + |e'.redo| == |e.history| + |e.redo|
  {
    var n := |e.history|;
    if n > 1 then
      var e1 := Editor(e.history[..n - 1], e.redo + [e.history[n - 1]], e.view);
      RestoreState(e1, e1.history[n - 2])
    else
      e
  }

  /** `redo`: with a non-empty redo stack, its top entry moves back onto the
      history and is restored; otherwise nothing happens. */
  function Redo(e: Editor): (e': Editor)
    ensures e.redo == [] ==> e' == e
    ensures e.redo != [] ==>
      var m := |e.redo|;
      && e'.redo == e.redo[..m - 1]
      && e'.history == e.history + [e.redo[m - 1]]
      && Current(e') == Some(e.redo[m - 1])
      && Displays(e'.view, e.redo[m - 1])
    ensures |e'.history| + |e'.redo| == |e.history| + |e.redo|
  {
    var m := |e.redo|;
    if m > 0 then
      var next := e.redo[m - 1];
      RestoreState(Editor(e.history + [next], e.redo[..m - 1], e.view), next)
    else
      e
  }

  // ---------------------------------------------------------------------
  // The timeline that undo and redo walk along

  /** The reverse of a sequence. */
  function Reverse<T>(s: seq<T>): (r: seq<T>)
    ensures |r| == |s|
    ensures forall i :: 0 <= i < |s| ==> r[i] == s[|s| - 1 - i]
  {
    seq(|s|, i requires 0 <= i < |s| => s[|s| - 1 - i])
  }

  /** Every entry in order, oldest first: the history, then the redo stack
      from its top down. */
  function Timeline(e: Editor): seq<Snapshot>
  {
    e.history + Reverse(e.redo)
  }

  /** Putting an entry on top of a stack puts it first in the reversed stack. */
  lemma ReversePush<T>(s: seq<T>, x: T)
    ensures Reverse(s + [x]) == [x] + Reverse(s)
  {
    var r, r' := Reverse(s + [x]), [x] + Reverse(s);
    forall i | 0 <= i < |r|
      ensures r[i] == r'[i]
    {
      if i > 0 {
        assert r'[i] == Reverse(s)[i - 1];
      }
    }
  }

  /** Undo only moves the boundary between past and future: the timeline is
      unchanged. */
  lemma UndoKeepsTimeline(e: Editor)
    ensures Timeline(Undo(e)) == Timeline(e)
  {
    var n := |e.history|;
    if n > 1 {
      ReversePush(e.redo, e.history[n - 1]);
      assert e.history[..n - 1] + [e.history[n - 1]] == e.history;
    }
  }

  /** Redo only moves the boundary between past and future: the timeline is
      unchanged. */
  lemma RedoKeepsTimeline(e: Editor)
    ensures Timeline(Redo(e)) == Timeline(e)
  {
    var m := |e.redo|;
    if m > 0 {
      ReversePush(e.redo[..m - 1], e.redo[m - 1]);
      assert e.redo[..m - 1] + [e.redo[m - 1]] == e.redo;
    }
  }

  /** Saving cuts the timeline after the current entry and appends the new
      snapshot: the undone branch is gone. */
  lemma SaveCutsTimeline(e: Editor, now: DateFields)
    requires Valid(now)
    ensures var e' := SaveState(e, now);
      Timeline(e') == e.history + [e'.history[|e.history|]]
  {
  }

  // ---------------------------------------------------------------------
  // Laws of the two stacks

  /** Redo undoes an undo: both stacks come back exactly, and the view shows
      the entry that was current before. */
  lemma UndoThenRedo(e: Editor)
    requires |e.history| > 1
    ensures Redo(Undo(e)).history == e.history
    ensures Redo(Undo(e)).redo == e.redo
    ensures Displays(Redo(Undo(e)).view, e.history[|e.history| - 1])
  {
    var n := |e.history|;
    assert e.history[..n - 1] + [e.history[n - 1]] == e.history;
    assert (e.redo + [e.history[n - 1]])[..|e.redo|] == e.redo;
  }

  /** Undo undoes a redo, as long as there was a current entry to go back to. */
  lemma RedoThenUndo(e: Editor)
    requires |e.history| >= 1 && e.redo != []
    ensures Undo(Redo(e)).history == e.history
    ensures Undo(Redo(e)).redo == e.redo
    ensures Displays(Undo(Redo(e)).view, e.history[|e.history| - 1])
  {
    var m := |e.redo|;
    assert e.redo[..m - 1] + [e.redo[m - 1]] == e.redo;
    assert (e.history + [e.redo[m - 1]])[..|e.history|] == e.history;
  }

  /** After a save, redo has nothing to do, in particular after an undo. */
  lemma RedoAfterSaveIsNoOp(e: Editor, now: DateFields)
    requires Valid(now)
    ensures Redo(SaveState(e, now)) == SaveState(e, now)
    ensures Redo(SaveState(Undo(e), now)) == SaveState(Undo(e), now)
  {
  }

  /** The baseline entry is never undone away: undo leaves a non-empty
      history non-empty, and with a single entry it changes nothing. */
  lemma BaselineKept(e: Editor)
    requires |e.history| >= 1
    ensures |Undo(e).history| >= 1
    ensures |e.history| == 1 ==> Undo(e) == e && Current(Undo(e)) == Some(e.history[0])
  {
    if |e.history| > 1 {
      assert |Undo(e).history| == |e.history| - 1;
    }
  }

  /** Save, undo and redo keep the view showing the current entry; only a
      click on another entry of the history panel shows something else. */
  lemma ViewFollowsCurrent(e: Editor, now: DateFields)
    requires Valid(now)
    requires e.history != [] && Shows(e.view, e.history[|e.history| - 1])
    ensures var u := Undo(e); Shows(u.view, u.history[|u.history| - 1])
    ensures var r := Redo(e); Shows(r.view, r.history[|r.history| - 1])
    ensures var s := SaveState(e, now); Shows(s.view, s.history[|s.history| - 1])
  {
    UndoShowsCurrent(e);
    RedoShowsCurrent(e);
    SaveShowsCurrent(e, now);
  }

  /** Undo keeps the view showing the current entry. */
  lemma UndoShowsCurrent(e: Editor)
    requires e.history != [] && Shows(e.view, e.history[|e.history| - 1])
    ensures var u := Undo(e); Shows(u.view, u.history[|u.history| - 1])
  {
    var u := Undo(e);
    if |e.history| > 1 {
      assert u.history[|u.history| - 1] == e.history[|e.history| - 2];
    }
  }

  /** Redo keeps the view showing the current entry. */
  lemma RedoShowsCurrent(e: Editor)
    requires e.history != [] && Shows(e.view, e.history[|e.history| - 1])
    ensures var r := Redo(e); Shows(r.view, r.history[|r.history| - 1])
  {
    var r := Redo(e);
    if e.redo != [] {
      assert r.history[|r.history| - 1] == e.redo[|e.redo| - 1];
    }
  }

  /** A save puts a snapshot of the view on top, so the view shows it. */
  lemma SaveShowsCurrent(e: Editor, now: DateFields)
    requires Valid(now)
    ensures var s := SaveState(e, now); Shows(s.view, s.history[|s.history| - 1])
  {
    var s := SaveState(e, now);
    assert s.history[|s.history| - 1] == s.history[|e.history|];
  }

  /** Two saves, an undo, a redo and a third save, from an empty editor: undo
      shows the first snapshot, redo the second, and after the third save
      there is nothing left to redo. */
  lemma SaveUndoRedoScenario(v0: View, va: View, vb: View, vc: View, t: DateFields)
    requires Valid(t)
    ensures var a := SaveState(Editor([], [], v0).(view := va), t);
      var b := SaveState(a.(view := vb), t);
      var u := Undo(b);
      var r := Redo(u);
      var c := SaveState(r.(view := vc), t);
      && Shows(u.view, a.history[0]) && Shows(va, a.history[0])
      && Shows(r.view, b.history[1]) && Shows(vb, b.history[1])
      && c.redo == [] && Redo(c) == c
  {
  }
}

=== FILE: numeric.dfy ===
/** Numbers shared by the colour codec and the pixel map: the 8-bit channel
    type of a canvas pixel buffer and JavaScript's rounding. */
module Numeric {

  /** One 8-bit unsigned channel value. */
  type byte = x: int | 0 <= x < 256

  /** `Math.round`: the integer nearest to `x`, a half rounding up. */
  function Round(x: real): (n: int)
    ensures n as real - 0.5 <= x < n as real + 0.5
  {
    (x + 0.5).Floor
  }

  /** Rounding keeps the order of its arguments. */
  lemma RoundMonotone(x: real, y: real)
    requires x <= y
    ensures Round(x) <= Round(y)
  {
  }

  function Min(a: int, b: int): int { if a <= b then a else b }

  function Max(a: int, b: int): int { if a <= b then b else a }
}

=== FILE: timestamp.dfy ===
/** `formatTimestamp`: the label each history entry carries, such as
    `3/7/25 9:05pm` — month/day/two-digit year, then the time on a 12-hour
    clock with minutes always written with two digits.

    The program reads the fields from a `Date`; here they are given
    explicitly, in the ranges the `Date` getters return. */
module Timestamp {
  import opened Wrappers

  /** `getMonth()` (0 to 11), `getDate()`, `getFullYear()`, `getHours()`
      (0 to 23) and `getMinutes()` (0 to 59). */
  datatype DateFields = DateFields(month: int, day: int, year: int, hours: int, minutes: int)

  predicate Valid(d: DateFields)
  {
    0 <= d.month < 12 && 1 <= d.day <= 31 && 0 <= d.hours < 24 && 0 <= d.minutes < 60
  }

  // ---------------------------------------------------------------------
  // Decimal strings

  predicate IsDigit(c: char)
  {
    '0' <= c <= '9'
  }

  predicate AllDigits(s: string)
  {
    forall i :: 0 <= i < |s| ==> IsDigit(s[i])
  }

  function DigitChar(d: nat): (c: char)
    requires d < 10
    ensures IsDigit(c)
  {
    ('0' as int + d) as char
  }

  /** The number a string of decimal digits denotes. */
  function {:induction false} DecimalValue(s: string): nat
    requires AllDigits(s)
    decreases |s|
  {
    if |s| == 0 then 0 else DecimalValue(s[..|s| - 1]) * 10 + (s[|s| - 1] as int - '0' as int)
  }

  /** `toString()` of a natural number: its decimal digits, no leading zero. */
  function {:induction false} NatToString(n: nat): (s: string)
    ensures 1 <= |s| && AllDigits(s)
    ensures |s| == 1 <==> n < 10
    ensures s[|s| - 1] == DigitChar(n % 10)
    ensures n != 0 ==> s[0] != '0'
    decreases n
  {
    if n < 10 then [DigitChar(n)] else NatToString(n / 10) + [DigitChar(n % 10)]
  }

  /** Reading the written digits back gives the number. */
  lemma {:induction false} NatToStringRoundTrip(n: nat)
    ensures DecimalValue(NatToString(n)) == n
    decreases n
  {
    if n >= 10 {
      NatToStringRoundTrip(n / 10);
      var s := NatToString(n);
      assert s[..|s| - 1] == NatToString(n / 10);
    }
  }

  /** Numbers below 100 are written with at most two digits. */
  lemma {:induction false} NatToStringShort(n: nat)
    requires n < 100
    ensures |NatToString(n)| <= 2
  {
    if n >= 10 {
      assert n / 10 < 10;
    }
  }

  /** No character of `s` is a space. */
  predicate NoSpace(s: string)
  {
    forall i :: 0 <= i < |s| ==> s[i] != ' '
  }

  /** Joining two strings without spaces gives one without spaces. */
  lemma NoSpaceConcat(a: string, b: string)
    requires NoSpace(a) && NoSpace(b)
    ensures NoSpace(a + b)
  {
    forall i | 0 <= i < |a + b|
      ensures (a + b)[i] != ' '
    {
      if i < |a| {
        assert (a + b)[i] == a[i];
      } else {
        assert (a + b)[i] == b[i - |a|];
      }
    }
  }

  /** `toString()` of any integer: its decimal digits, after a `-` for a
      negative one; the digits read back as the magnitude. */
  function IntToString(y: int): (s: string)
    ensures 1 <= |s| && IsDigit(s[|s| - 1]) && NoSpace(s)
    ensures |s| == 1 <==> 0 <= y < 10
    ensures y >= 0 ==> AllDigits(s) && DecimalValue(s) == y
    ensures y < 0 ==> s[0] == '-' && AllDigits(s[1..]) && DecimalValue(s[1..]) == -y
  {
    if y < 0 then
      var m := NatToString(-y);
      NatToStringRoundTrip(-y);
      assert ("-" + m)[1..] == m;
      "-" + m
    else
      NatToStringRoundTrip(y);
      NatToString(y)
  }

  /** `slice(-2)`: the last two characters, or the whole of a shorter string. */
  function LastTwo(s: string): (t: string)
    ensures |t| == if |s| < 2 then |s| else 2
    ensures t == s[|s| - |t|..]
  {
    if |s| <= 2 then s else s[|s| - 2..]
  }

  /** `padStart(2, "0")`: zeros in front up to two characters. */
  function PadTwo(s: string): (t: string)
    ensures |s| <= 2 ==> |t| == 2
    ensures |s| >= 2 ==> t == s
    ensures t[|t| - |s|..] == s
    ensures forall i :: 0 <= i < |t| - |s| ==> t[i] == '0'
  {
    if |s| >= 2 then s else if |s| == 1 then "0" + s else "00"
  }

  /** Padding a one- or two-digit string keeps the number it denotes. */
  lemma PadTwoValue(m: string)
    requires 1 <= |m| <= 2 && AllDigits(m)
    ensures AllDigits(PadTwo(m))
    ensures DecimalValue(PadTwo(m)) == DecimalValue(m)
  {
    var s := PadTwo(m);
    if |m| == 1 {
      assert s[..1] == "0";
      assert DecimalValue(s[..1][..0]) == 0;
      assert m[..0] == "";
    }
  }

  // ---------------------------------------------------------------------
  // Reading the date back

  /** The position of the first `c` in `s`, if there is one. */
  function {:induction false} IndexOf(s: string, c: char): (r: Option<nat>)
    ensures r.None? <==> forall q :: 0 <= q < |s| ==> s[q] != c
    ensures r.Some? ==> r.value < |s| && s[r.value] == c && forall q :: 0 <= q < r.value ==> s[q] != c
    decreases |s|
  {
    if |s| == 0 then None
    else if s[0] == c then Some(0)
    else
      match IndexOf(s[1..], c)
      case None =>
        assert forall q :: 1 <= q < |s| ==> s[q] == s[1..][q - 1];
        None
      case Some(k) =>
        assert forall q :: 1 <= q <= k + 1 ==> s[q] == s[1..][q - 1];
        Some(k + 1)
  }

  /** The first `c` of a string is the one with no `c` before it. */
  lemma IndexOfFirst(s: string, c: char, p: nat)
    requires p < |s| && s[p] == c
    requires forall q :: 0 <= q < p ==> s[q] != c
    ensures IndexOf(s, c) == Some(p)
  {
  }

  /** A date part `month/day/rest` read back: the digits before the first
      `/` as the month, those between it and the next `/` as the day, and
      the rest as the year field. Month and day are written without a
      leading zero, so one with a leading zero is not a date part. */
  function ParseDate(date: string): Option<(int, int, string)>
  {
    match IndexOf(date, '/')
    case None => None
    case Some(i) =>
      var rest := date[i + 1..];
      match IndexOf(rest, '/')
      case None => None
      case Some(k) =>
        var month, day := date[..i], rest[..k];
        if 1 <= |month| && 1 <= |day| && AllDigits(month) && AllDigits(day)
           && month[0] != '0' && day[0] != '0' then
          Some((DecimalValue(month), DecimalValue(day), rest[k + 1..]))
        else None
  }

  /** Two digit strings without a leading zero and a rest joined by `/`
      read back as the values of the two and the rest. */
  lemma ParseDateParts(m: string, dd: string, yy: string)
    requires 1 <= |m| && AllDigits(m) && 1 <= |dd| && AllDigits(dd)
    requires m[0] != '0' && dd[0] != '0'
    ensures ParseDate(m + "/" + dd + "/" + yy) == Some((DecimalValue(m), DecimalValue(dd), yy))
  {
    var rest := dd + "/" + yy;
    assert m + "/" + dd + "/" + yy == m + ['/'] + rest;
    assert rest == dd + ['/'] + yy;
    SplitAt(m, '/', rest);
    SplitAt(dd, '/', yy);
  }

  /** In `a + [c] + b` with no `c` in `a`, the first `c` follows `a`. */
  lemma SplitAt(a: string, c: char, b: string)
    requires forall q :: 0 <= q < |a| ==> a[q] != c
    ensures var s := a + [c] + b;
      IndexOf(s, c) == Some(|a|) && s[..|a|] == a && s[|a| + 1..] == b
  {
    var s := a + [c] + b;
    forall q | 0 <= q < |a|
      ensures s[q] != c
    {
      assert s[q] == a[q];
    }
    IndexOfFirst(s, c, |a|);
    assert s[..|a|] == a;
    assert s[|a| + 1..] == b;
  }

  /** The date of a label: everything before its first space, read back by
      `ParseDate`. */
  function DateOf(s: string): Option<(int, int, string)>
  {
    match IndexOf(s, ' ')
    case None => None
    case Some(p) => ParseDate(s[..p])
  }

  /** The date of `date + " " + time`, for a date part without spaces, is
      read from the date part alone. */
  lemma DateOfLabel(date: string, time: string)
    requires NoSpace(date)
    ensures DateOf(date + " " + time) == ParseDate(date)
  {
    var s := date + " " + time;
    forall q | 0 <= q < |date|
      ensures s[q] != ' '
    {
      assert s[q] == date[q];
    }
    IndexOfFirst(s, ' ', |date|);
    assert s[..|date|] == date;
  }

  // ---------------------------------------------------------------------
  // Fields of the label

  /** The year as the label shows it: the last two characters of the year. */
  function YearField(year: int): (s: string)
    ensures 1 <= |s| <= 2 && IsDigit(s[|s| - 1]) && NoSpace(s)
    ensures |s| == 1 <==> 0 <= year < 10
  {
    LastTwo(IntToString(year))
  }

  /** The value of a string of two digits. */
  lemma TwoDigitValue(a: nat, b: nat)
    requires a < 10 && b < 10
    ensures DecimalValue([DigitChar(a), DigitChar(b)]) == 10 * a + b
  {
    var s := [DigitChar(a), DigitChar(b)];
    assert s[..1] == [DigitChar(a)];
    assert s[..1][..0] == [];
    assert DecimalValue(s[..1]) == a;
    assert DecimalValue(s) == DecimalValue(s[..1]) * 10 + b;
  }

  /** The last two characters of a number of two or more digits are its tens
      and units digits. */
  lemma LastTwoDigits(n: nat)
    requires n >= 10
    ensures LastTwo(NatToString(n)) == [DigitChar((n / 10) % 10), DigitChar(n % 10)]
  {
    var t := NatToString(n / 10);
    assert NatToString(n) == t + [DigitChar(n % 10)];
    LastTwoOfAppend(t, DigitChar(n % 10));
  }

  /** The last two characters of a string of two or more. */
  lemma LastTwoOfAppend(t: string, c: char)
    requires |t| >= 1
    ensures LastTwo(t + [c]) == [t[|t| - 1], c]
  {
    var s := t + [c];
    assert s[|s| - 2..] == [t[|t| - 1], c];
  }

  /** The tens and units digits of a number make up its value modulo 100. */
  lemma TensAndUnits(n: nat)
    ensures 10 * ((n / 10) % 10) + n % 10 == n % 100
  {
    var u, q := n % 10, n / 10;
    var t, r := q % 10, q / 10;
    assert n == 10 * q + u;
    assert q == 10 * r + t;
    assert n == 100 * r + (10 * t + u);
    assert 0 <= 10 * t + u < 100;
  }

  /** For a year of the common era the year field is the year modulo 100,
      written with one digit only for the years 0 to 9. */
  lemma YearFieldValue(year: int)
    requires year >= 0
    ensures AllDigits(YearField(year))
    ensures DecimalValue(YearField(year)) == year % 100
    ensures |YearField(year)| == if year < 10 then 1 else 2
  {
    if year >= 10 {
      var tens, units := (year / 10) % 10, year % 10;
      LastTwoDigits(year);
      assert YearField(year) == [DigitChar(tens), DigitChar(units)];
      TwoDigitValue(tens, units);
      TensAndUnits(year);
    } else {
      var f := YearField(year);
      assert f == [DigitChar(year)];
      assert f[..0] == [];
    }
  }

  /** `hours % 12`, with 0 shown as 12. */
  function Hour12(hours: int): (h: int)
    requires 0 <= hours < 24
    ensures 1 <= h <= 12
    ensures h == 12 <==> hours == 0 || hours == 12
    ensures hours < 12 ==> h == if hours == 0 then 12 else hours
    ensures hours >= 12 ==> h == if hours == 12 then 12 else hours - 12
  {
    var h := hours % 12;
    if h != 0 then h else 12
  }

  /** `pm` from noon on, `am` before. */
  function Meridiem(hours: int): (s: string)
    ensures |s| == 2 && s[1] == 'm'
    ensures s[0] == 'p' <==> hours >= 12
    ensures s[0] == 'a' <==> hours < 12
  {
    if hours >= 12 then "pm" else "am"
  }

  /** Reading a 12-hour clock back onto the 24-hour one. */
  function To24(h12: int, pm: bool): int
  {
    (if h12 == 12 then 0 else h12) + (if pm then 12 else 0)
  }

  /** The 12-hour hour and the meridiem together determine the hour. */
  lemma Hour12RoundTrip(hours: int)
    requires 0 <= hours < 24
    ensures To24(Hour12(hours), hours >= 12) == hours
  {
  }

  /** `getMinutes().toString().padStart(2, "0")`. */
  function MinuteField(minutes: int): (s: string)
    requires 0 <= minutes < 60
    ensures |s| == 2 && AllDigits(s)
    ensures DecimalValue(s) == minutes
  {
    var m := NatToString(minutes);
    NatToStringShort(minutes);
    NatToStringRoundTrip(minutes);
    PadTwoValue(m);
    PadTwo(m)
  }

  /** The date part of the label: `month/day/yy`, the month counted from 1.
      It begins and ends with a digit and holds no space; `DateFieldParses`
      reads it back. */
  function DateField(d: DateFields): (s: string)
    requires Valid(d)
    ensures |s| >= 5 && IsDigit(s[0]) && IsDigit(s[|s| - 1]) && NoSpace(s)
  {
    var m, dd, yy := NatToString(d.month + 1), NatToString(d.day), YearField(d.year);
    DateLayout(m, dd, yy);
    m + "/" + dd + "/" + yy
  }

  /** The date part reads back as the month counted from 1, the day and the
      year field. */
  lemma DateFieldParses(d: DateFields)
    requires Valid(d)
    ensures ParseDate(DateField(d)) == Some((d.month + 1, d.day, YearField(d.year)))
  {
    var m, dd, yy := NatToString(d.month + 1), NatToString(d.day), YearField(d.year);
    NatToStringRoundTrip(d.month + 1);
    NatToStringRoundTrip(d.day);
    ParseDateParts(m, dd, yy);
    assert DateField(d) == m + "/" + dd + "/" + yy;
  }

  /** The shape of `month/day/year` for two digit strings and a year field
      ending in a digit. */
  lemma DateLayout(m: string, dd: string, yy: string)
    requires 1 <= |m| && AllDigits(m) && 1 <= |dd| && AllDigits(dd)
    requires 1 <= |yy| && IsDigit(yy[|yy| - 1]) && NoSpace(yy)
    ensures var s := m + "/" + dd + "/" + yy;
      && |s| >= 5 && IsDigit(s[0]) && IsDigit(s[|s| - 1]) && NoSpace(s)
  {
    assert forall q :: 0 <= q < |m| ==> IsDigit(m[q]) && m[q] != ' ';
    assert forall q :: 0 <= q < |dd| ==> IsDigit(dd[q]) && dd[q] != ' ';
    NoSpaceConcat(m, "/");
    NoSpaceConcat(m + "/", dd);
    NoSpaceConcat(m + "/" + dd, "/");
    NoSpaceConcat(m + "/" + dd + "/", yy);
    var s := m + "/" + dd + "/" + yy;
    assert s[0] == m[0] && s[|s| - 1] == yy[|yy| - 1];
  }

  /** The hour as the label shows it: one or two digits reading as the
      12-hour hour. */
  function HourField(hours: int): (s: string)
    requires 0 <= hours < 24
    ensures 1 <= |s| <= 2 && AllDigits(s)
    ensures |s| == 1 <==> Hour12(hours) < 10
    ensures DecimalValue(s) == Hour12(hours)
  {
    NatToStringShort(Hour12(hours));
    NatToStringRoundTrip(Hour12(hours));
    NatToString(Hour12(hours))
  }

  /** The time part of the label: `h:mm` followed by `am` or `pm`. */
  function TimeField(hours: int, minutes: int): (t: string)
    requires 0 <= hours < 24 && 0 <= minutes < 60
    ensures 6 <= |t| <= 7 && NoSpace(t)
  {
    var hh, mm, mer := HourField(hours), MinuteField(minutes), Meridiem(hours);
    NoSpaceConcat(hh, ":");
    NoSpaceConcat(hh + ":", mm);
    NoSpaceConcat(hh + ":" + mm, mer);
    hh + ":" + mm + mer
  }

  /** `formatTimestamp`: `month/day/yy h:mm` followed by `am` or `pm`. The
      only space is the one between the date and the time, so the label
      splits back into the two uniquely. */
  function FormatTimestamp(d: DateFields): (s: string)
    requires Valid(d)
    ensures forall i :: 0 <= i < |s| ==> (s[i] == ' ' <==> i == |DateField(d)|)
  {
    var date, time := DateField(d), TimeField(d.hours, d.minutes);
    OneSpace(date, time);
    date + " " + time
  }

  /** In `a + " " + b` with no space in `a` or `b`, the space in between is
      the only one. */
  lemma OneSpace(a: string, b: string)
    requires NoSpace(a) && NoSpace(b)
    ensures forall i :: 0 <= i < |a + " " + b| ==> ((a + " " + b)[i] == ' ' <==> i == |a|)
  {
    var s := a + " " + b;
    forall i | 0 <= i < |s|
      ensures s[i] == ' ' <==> i == |a|
    {
      if i < |a| {
        assert s[i] == a[i];
      } else if i > |a| {
        assert s[i] == b[i - |a| - 1];
      }
    }
  }

  /** What a time part `t` for `hours:minutes` looks like read character by
      character from its end: `m` last, `p` exactly from noon on and `a`
      before, two digits giving the minute after a `:`, and one or two digits
      before it giving the 12-hour hour. */
  predicate TimeChars(t: string, hours: int, minutes: int)
    requires 0 <= hours < 24
  {
    var n := |t|;
    && (n == 6 || n == 7)
    && t[n - 1] == 'm'
    && (t[n - 2] == 'p' <==> hours >= 12) && (t[n - 2] == 'a' <==> hours < 12)
    && t[n - 5] == ':' && IsDigit(t[n - 4]) && IsDigit(t[n - 3])
    && 10 * DecimalDigit(t[n - 4]) + DecimalDigit(t[n - 3]) == minutes
    && IsDigit(t[n - 6])
    && (n == 6 <==> Hour12(hours) < 10)
    && (n == 6 ==> DecimalDigit(t[0]) == Hour12(hours))
    && (n == 7 ==> IsDigit(t[0]) && 10 * DecimalDigit(t[0]) + DecimalDigit(t[1]) == Hour12(hours))
  }

  /** The time part has the layout `TimeChars` describes. */
  lemma TimeFieldChars(hours: int, minutes: int)
    requires 0 <= hours < 24 && 0 <= minutes < 60
    ensures TimeChars(TimeField(hours, minutes), hours, minutes)
  {
    var hh, mm, mer := HourField(hours), MinuteField(minutes), Meridiem(hours);
    ShortDecimalValue(hh);
    ShortDecimalValue(mm);
    TimeLayout(hh, mm, mer);
    assert TimeField(hours, minutes) == hh + ":" + mm + mer;
    assert IsDigit(hh[0]) && IsDigit(hh[|hh| - 1]) && IsDigit(mm[0]) && IsDigit(mm[1]);
    assert mer[1] == 'm' && (mer[0] == 'p' <==> hours >= 12) && (mer[0] == 'a' <==> hours < 12);
  }

  /** Where each piece of `hh:mm` plus a meridiem lands, counted from the end. */
  lemma TimeLayout(hh: string, mm: string, mer: string)
    requires 1 <= |hh| <= 2 && |mm| == 2 && |mer| == 2
    ensures var t := hh + ":" + mm + mer; var n := |t|;
      && n == |hh| + 5
      && t[n - 1] == mer[1] && t[n - 2] == mer[0]
      && t[n - 3] == mm[1] && t[n - 4] == mm[0] && t[n - 5] == ':'
      && t[n - 6] == hh[|hh| - 1] && t[0] == hh[0]
      && (|hh| == 2 ==> t[1] == hh[1])
  {
  }

  // ---------------------------------------------------------------------
  // Reading the clock back

  /** The value of one decimal digit character. */
  function DecimalDigit(c: char): int
  {
    c as int - '0' as int
  }

  /** The value of a one- or two-digit string, digit by digit. */
  lemma ShortDecimalValue(s: string)
    requires 1 <= |s| <= 2 && AllDigits(s)
    ensures |s| == 1 ==> DecimalValue(s) == DecimalDigit(s[0])
    ensures |s| == 2 ==> DecimalValue(s) == 10 * DecimalDigit(s[0]) + DecimalDigit(s[1])
  {
    assert s[..|s| - 1][..0] == [];
    if |s| == 2 {
      assert s[..1] == [s[0]];
    }
  }

  /** The time a label shows, read character by character from its end:
      `am`/`pm`, two minute digits, `:`, and one or two hour digits, the
      first of two not a zero, after a space. */
  function ClockOf(s: string): Option<(int, int)>
  {
    var n := |s|;
    if n < 7 || !(s[n - 2] == 'a' || s[n - 2] == 'p') || s[n - 1] != 'm' || s[n - 5] != ':'
       || !IsDigit(s[n - 4]) || !IsDigit(s[n - 3]) || !IsDigit(s[n - 6]) then None
    else
      var minutes := 10 * DecimalDigit(s[n - 4]) + DecimalDigit(s[n - 3]);
      var pm := s[n - 2] == 'p';
      if s[n - 7] == ' ' then Some((To24(DecimalDigit(s[n - 6]), pm), minutes))
      else if n >= 8 && IsDigit(s[n - 7]) && s[n - 7] != '0' && s[n - 8] == ' ' then
        Some((To24(10 * DecimalDigit(s[n - 7]) + DecimalDigit(s[n - 6]), pm), minutes))
      else None
  }

  /** Character `i` from the end of `a + b` is character `i` from the end
      of `b`. */
  lemma FromEnd(a: string, b: string, i: nat)
    requires 1 <= i <= |b|
    ensures (a + b)[|a + b| - i] == b[|b| - i]
  {
  }

  /** Reading the clock of a time part of six or seven characters placed
      after a space. */
  lemma ClockOfTime(pre: string, t: string)
    requires |pre| >= 1 && pre[|pre| - 1] == ' '
    requires var n := |t|;
      && (n == 6 || n == 7) && t[n - 1] == 'm' && (t[n - 2] == 'a' || t[n - 2] == 'p')
      && t[n - 5] == ':' && IsDigit(t[n - 4]) && IsDigit(t[n - 3]) && IsDigit(t[n - 6])
      && (n == 7 ==> IsDigit(t[0]) && t[0] != '0')
    ensures var n := |t|;
      var h12 := if n == 6 then DecimalDigit(t[0]) else 10 * DecimalDigit(t[0]) + DecimalDigit(t[1]);
      ClockOf(pre + t) == Some((To24(h12, t[n - 2] == 'p'), 10 * DecimalDigit(t[n - 4]) + DecimalDigit(t[n - 3])))
  {
    var s, m := pre + t, |t|;
    var n := |s|;
    FromEnd(pre, t, 1);
    FromEnd(pre, t, 2);
    FromEnd(pre, t, 3);
    FromEnd(pre, t, 4);
    FromEnd(pre, t, 5);
    FromEnd(pre, t, 6);
    assert s[n - m - 1] == ' ';
    if m == 7 {
      FromEnd(pre, t, 7);
    }
  }

  /** The label keeps the time exactly: reading its clock back gives the
      hour (0 to 23) and minute it was formatted from. */
  lemma ClockRoundTrip(d: DateFields)
    requires Valid(d)
    ensures ClockOf(FormatTimestamp(d)) == Some((d.hours, d.minutes))
  {
    var pre := DateField(d) + " ";
    assert pre[|pre| - 1] == ' ';
    ClockOfTimeField(pre, d.hours, d.minutes);
    assert FormatTimestamp(d) == pre + TimeField(d.hours, d.minutes);
  }

  /** The clock read back from the time part, after anything that ends in a
      space, is the hour and minute the time part was written from. */
  lemma ClockOfTimeField(pre: string, hours: int, minutes: int)
    requires |pre| >= 1 && pre[|pre| - 1] == ' '
    requires 0 <= hours < 24 && 0 <= minutes < 60
    ensures ClockOf(pre + TimeField(hours, minutes)) == Some((hours, minutes))
  {
    TimeFieldChars(hours, minutes);
    ClockOfTimeChars(pre, TimeField(hours, minutes), hours, minutes);
  }

  /** The clock read back from any time part laid out for `hours:minutes`,
      after anything that ends in a space, is that hour and minute. */
  lemma ClockOfTimeChars(pre: string, t: string, hours: int, minutes: int)
    requires |pre| >= 1 && pre[|pre| - 1] == ' '
    requires 0 <= hours < 24 && TimeChars(t, hours, minutes)
    ensures ClockOf(pre + t) == Some((hours, minutes))
  {
    ClockOfTime(pre, t);
    var n := |t|;
    var h12 := if n == 6 then DecimalDigit(t[0]) else 10 * DecimalDigit(t[0]) + DecimalDigit(t[1]);
    assert h12 == Hour12(hours);
    Hour12RoundTrip(hours);
    assert To24(h12, t[n - 2] == 'p') == hours;
  }

  /** The label ends in `pm` exactly from noon on and in `am` before, and
      the minutes always take two digits after a `:`. */
  lemma FormatTimestampShape(d: DateFields)
    requires Valid(d)
    ensures var s := FormatTimestamp(d); var n := |s|;
      && n >= 7 && s[n - 1] == 'm'
      && (s[n - 2] == 'p' <==> d.hours >= 12) && (s[n - 2] == 'a' <==> d.hours < 12)
      && s[n - 5] == ':' && IsDigit(s[n - 4]) && IsDigit(s[n - 3])
  {
    var pre := DateField(d) + " ";
    assert |pre| >= 1;
    TimeEnd(pre, d.hours, d.minutes);
    assert FormatTimestamp(d) == pre + TimeField(d.hours, d.minutes);
  }

  /** The end of any string followed by the time part is the end of the
      time part. */
  lemma TimeEnd(pre: string, hours: int, minutes: int)
    requires 0 <= hours < 24 && 0 <= minutes < 60
    ensures var s := pre + TimeField(hours, minutes); var n := |s|;
      && n >= |pre| + 6 && s[n - 1] == 'm'
      && (s[n - 2] == 'p' <==> hours >= 12) && (s[n - 2] == 'a' <==> hours < 12)
      && s[n - 5] == ':' && IsDigit(s[n - 4]) && IsDigit(s[n - 3])
  {
    var t := TimeField(hours, minutes);
    TimeFieldChars(hours, minutes);
    FromEnd(pre, t, 1);
    FromEnd(pre, t, 2);
    FromEnd(pre, t, 3);
    FromEnd(pre, t, 4);
    FromEnd(pre, t, 5);
  }

  /** The label keeps the date: reading the date back gives the month
      counted from 1, the day and the year field it was formatted from. */
  lemma DateRoundTrip(d: DateFields)
    requires Valid(d)
    ensures DateOf(FormatTimestamp(d)) == Some((d.month + 1, d.day, YearField(d.year)))
  {
    var date, time := DateField(d), TimeField(d.hours, d.minutes);
    DateFieldParses(d);
    DateOfLabel(date, time);
    assert FormatTimestamp(d) == date + " " + time;
  }
}

=== FILE: wrappers.dfy ===
/** The Some/None datatype used where the program would yield NaN, undefined
    or nothing at all. */
module Wrappers {

  datatype Option<+T> = None | Some(value: T)
}
